=== FILE: README.md ===
# Riemann problem simulator for a non-convex three-state system

A Dafny model of `src/sim.c`, a Monte Carlo simulator for a totally
asymmetric interacting particle system on a ring of N sites. Each site holds
a hole (-1), a neutral site (0) or a particle (1). The simulator runs SUM
independent replicas. Each replica goes like this:

- The ring is filled from a step-function initial condition: one density on
  the left half and another on the right half.
- The ring then evolves by elementary jump steps. A step picks a site `ia`
  uniformly. If that site is not a hole, the step counts one unit of time
  and tries the rewrite that matches the pair `(v[ia], v[(ia+1) % N])`:
  - `0- => -0` with probability `pa`;
  - `+0 => 0+` with probability `pb`;
  - `+- => 00` with probability `pc`;
  - `00 => -+` with probability `pd`.
- Every DT_SHOT units of time the ring is added into the next row of a
  SHOTS x N table of 16-bit `short` cells. Shot 0 is the initial ring.

The model has five modules, one per part of the program.

- `Rates` (`rates.dfy`) is the rate table. It holds the four rates divided
  by 2 + B, then divided by their largest entry ("time acceleration"). It is
  computed over `real`.
- `Ring` (`ring.dfy`) is the ring, the pair dispatch and one jump step, as
  pure functions on `seq<int>`.
- `Fill` (`fill.dfy`) is `init_fill`. It is the per-site classification
  against two thresholds, and an imperative method that fills an `array` in
  two loops.
- `Trajectory` (`trajectory.dfy`) holds the specification functions of the
  shot loop (`Run`/`Pass`) and of the replica loop (`Replicas`). Both are
  written over a finite stream of uniform draws. It also holds the lemmas
  about them:
  - the counters stay in range;
  - time is counted exactly;
  - the ring total is conserved;
  - row 0 is the filled ring;
  - at most SUM replicas complete, and all SUM do unless the draws run out.
- `Simulation` (`simulation.dfy`) is the program as it runs.
  - The class `Simulator` holds the ring `v` (an `array`), the accumulator
    `m` (an `array2` of `short` cells) and the counters `s`, `dt` and `k`,
    which its methods update in place.
  - Each method is proved against the functions of `Trajectory`.
  - `Simulate`, the replica loop, ends with `k` equal to the number of
    completed replicas, which is SUM unless the draws ran out. Each cell of
    `m` ends as the `short` sum of the rows all replicas recorded, including
    one cut short by the end of the draws.

All random numbers come from one finite sequence of draws in [0, 1), read in
the program's order:

- N draws for each initial fill;
- one draw per step for the site;
- one acceptance draw, taken only when a rewrite matches the pair.

The program's generator never runs out. When the model's sequence cannot
feed the next fill or step, the model stops there. That includes the step
that follows a replica's last shot: a replica starved there is recorded
but does not count as completed, and no further fill starts.

## Model

| member | source | states |
|---|---|---|
| `Rates.Max` | src/sim.c:63 | the `MAX` macro returns an argument that is at least both arguments |
| `Rates.Largest` | src/sim.c:114 | the left-to-right fold of `MAX` is one of the four entries and is at least each of them |
| `Rates.Unscaled` | src/sim.c:108-111 | definition, no contract of its own: the four rates (1-A)/2, (1+A)/2, 1 and B, each divided by 2 + B |
| `Rates.Normalized` | src/sim.c:108-118 | definition, no contract of its own: the unscaled table divided by its largest entry; its properties are the lemmas below |
| `Rates.LargestScales` | src/sim.c:114-118 | dividing every entry by a positive constant divides the largest entry by it |
| `Rates.UnscaledLargestPositive` | src/sim.c:108-114 | for any B other than -2 the largest entry `p0` is positive, so the acceleration divides by a positive number |
| `Rates.NormalizedLargestIsOne` | src/sim.c:108-118 | after acceleration the largest probability is exactly 1 and none exceeds 1 |
| `Rates.NormalizedInUnitInterval` | src/sim.c:108-118 | for B >= 0 and -1 <= A <= 1, each of pa, pb, pc and pd lies in [0, 1] |
| `Rates.NormalizedProportional` | src/sim.c:108-118 | acceleration keeps the ratios of the rates: pa = pc(1-A)/2, pb = pc(1+A)/2, pd = pc B, so pa + pb = pc |
| `Rates.AnnihilationFastest` | src/sim.c:108-118 | for 0 <= B <= 1 and \|A\| <= 1 the table is exactly ((1-A)/2, (1+A)/2, 1, B) |
| `Rates.DissociationFastest` | src/sim.c:108-118 | for B > 1 it is pd that equals 1, and pc equals 1/B |
| `Ring.Successor` | src/sim.c:167 | `(ia + 1) % N` is a site, namely the next index or 0 after the last |
| `Ring.SiteIndex` | src/sim.c:161 | `floor(u * N)` of a draw in [0, 1) is a site index below N |
| `Ring.SiteIndexInterval` | src/sim.c:161 | site i is selected exactly by the draws in [i/N, (i+1)/N), so every site has the same chance |
| `Ring.Advances` | src/sim.c:165 | on a ring of states the step counts time exactly when the chosen site is 0 or 1, not a hole |
| `Ring.Lhs` | src/sim.c:170-196 | the pair each rewrite applies to is a pair of states whose left site is not a hole |
| `Ring.Probability` | src/sim.c:171-196 | each rewrite is accepted with its own entry of the table, which is at most the largest entry |
| `Ring.NeedsDraw` | src/sim.c:170-196 | an acceptance draw is taken only on a step that counts time |
| `Ring.Rhs` | src/sim.c:54-58 | every rewrite keeps a + b, yields states and changes the right-hand site |
| `Ring.RewriteFor` | src/sim.c:170-198 | the if-ladder on (a, b) finds a rewrite exactly when (a, b) is the left-hand side of one |
| `Ring.StepRing` | src/sim.c:161-198 | a step writes at most sites `ia` and `(ia+1) % N` and keeps every site in {-1, 0, 1} |
| `Ring.StepChangesIff` | src/sim.c:171-196 | the ring changes if and only if a rewrite matches the pair and the draw is strictly below that rewrite's probability |
| `Ring.HoleStepIsIdle` | src/sim.c:165 | a step at a hole changes nothing, counts no time and takes no acceptance draw |
| `Ring.StepConservesSum` | src/sim.c:171-196 | on a ring of at least two sites every step keeps the total of the ring |
| `Ring.SingleSiteBreaksConservation` | src/sim.c:167-183 | on a ring of one site `ib == ia`, and the `00 => -+` rewrite turns the total 0 into 1 |
| `Fill.Classify` | src/sim.c:242-247 | a draw gives -1 iff u < p1, 0 iff p1 <= u < p2, and 1 otherwise |
| `Fill.ClassifyMonotone` | src/sim.c:242-247 | a larger draw never gives a smaller state |
| `Fill.FillRing` | src/sim.c:240-263 | sites [0, N/2) are classified by the left thresholds and sites [N/2, N) by the right ones, one draw each, and every site is a state |
| `Fill.UniformFill` | src/sim.c:240-263 | with equal thresholds on both halves every site is classified alike |
| `Fill.InitFill` | src/sim.c:240-263 | the two loops overwrite the whole vector with `FillRing` of the draws |
| `Trajectory.Advance` | src/sim.c:160-199 | one step fed from the stream reads one draw, plus one more exactly when a rewrite matches the pair; it counts at most one unit of time and keeps states |
| `Trajectory.AdvanceFacts` | src/sim.c:165-166 | a step counts one unit of time exactly when the chosen site is not a hole, even when no rewrite applies or the draw is rejected; with N >= 2 it keeps the total |
| `Trajectory.Run` | src/sim.c:150-200 | the shot loop, stopping once SHOTS shots are taken, reads the stream only forward |
| `Trajectory.Pass` | src/sim.c:152-199 | one pass (the shot if due, then a step or the end of the draws) and the rest of the loop read the stream only forward |
| `Trajectory.RunStep` | src/sim.c:150-199 | proof helper: one pass of the shot loop that takes a step is the shot due (if any) followed by the loop from the state the step leaves |
| `Trajectory.RunPass` | src/sim.c:150-199 | proof helper: the same unfolding, in the form the imperative loop uses |
| `Trajectory.RunLastPass` | src/sim.c:150-158 | proof helper: when the draws cannot feed the step, the shot due is still recorded and the loop stops there starved, even after its last shot |
| `Trajectory.RunCounters` | src/sim.c:147-158 | throughout the loop 0 <= dt <= DT_SHOT and s <= SHOTS, one row is recorded per shot, and the ring stays one of states |
| `Trajectory.RunRows` | src/sim.c:152-155 | every recorded row is a whole ring of states |
| `Trajectory.FirstRowIsStart` | src/sim.c:147-148 | with `dt` primed to DT_SHOT the first row is the ring before any step |
| `Trajectory.ShotKeepsClock` | src/sim.c:152-157 | proof helper: a shot moves DT_SHOT units from `dt` into `s` and keeps the elapsed time |
| `Trajectory.RunClock` | src/sim.c:152-166 | `s * DT_SHOT + dt` grows by exactly the number of steps whose site was not a hole |
| `Trajectory.RunEndsStarved` | src/sim.c:150 | the loop ends either after the step that follows shot SHOTS, or starved at a point where the draws cannot feed the next step |
| `Trajectory.HoleRingStalls` | src/sim.c:165-166 | a ring of holes only never counts time or takes a further shot, and it consumes every draw |
| `Trajectory.RunConservesSum` | src/sim.c:150-199 | with N >= 2 every recorded row and the final ring have the total of the starting ring |
| `Trajectory.Replica` | src/sim.c:146-148 | a replica's fill reads the next N draws and its steps read only the draws after them |
| `Trajectory.ReplicaFacts` | src/sim.c:146-158 | a replica takes at most SHOTS shots, one row per shot, rows of states, the first of them the filled ring; one that was not starved took all SHOTS shots |
| `Trajectory.Replicas` | src/sim.c:145-208 | the replica loop, each replica filling the ring from the next N draws and then running its shot loop, reads the stream only forward; a starved replica ends it |
| `Trajectory.ReplicasStep` | src/sim.c:145-203 | proof helper: a pass of the replica loop runs one replica, and the loop goes on only when that replica was not starved |
| `Trajectory.FollowsPass` | src/sim.c:145-203 | proof helper: a completed replica moves from the rest of the replica loop into its history, and a starved one is the last one recorded |
| `Trajectory.FollowsEnd` | src/sim.c:145 | proof helper: the replica loop records nothing more once SUM replicas are done or the draws cannot fill a ring |
| `Trajectory.StarvedAfterLastShot` | src/sim.c:152-199 | a regression example of the model's finite stream, which the program's endless generator never reaches: a replica on a one-site neutral ring whose step after its only shot lacks its acceptance draw is recorded, not completed, and ends the loop |
| `Trajectory.ReplicasCounts` | src/sim.c:145-203 | at most SUM replicas are recorded, all completed except at most one cut short, and each fill reads N draws that exist; the lower bound is `ReplicasRunAll` |
| `Trajectory.ReplicasRunAll` | src/sim.c:145-203 | the loop `while (k < SUM)` stops early only when the draws run out: all SUM replicas complete, or fewer than N draws are left for the next fill, or the last replica was starved with at most one draw left |
| `Trajectory.ReplicasRows` | src/sim.c:145-203 | every replica records rows of states, and each completed replica records exactly SHOTS rows |
| `Trajectory.FirstShotIsInitialRing` | src/sim.c:145-158 | row 0 of every replica is the ring its fill produced |
| `Trajectory.CellSumBounded` | src/sim.c:152-155 | a plain sum over k replicas of states lies in [-k, k] |
| `Simulation.Short` | src/sim.c:154 | storing into a `short` cell gives a value in [-32768, 32767] and keeps any value already in that range |
| `Simulation.ShortIsModular` | src/sim.c:154 | the stored value is congruent to the sum modulo 2^16 |
| `Simulation.ShortSum` | src/sim.c:152-155 | a cell of the table after any number of replicas is a `short` value |
| `Simulation.ShortSumExact` | src/sim.c:152-155 | with at most 32767 replicas of states no cell wraps: it equals the plain sum and lies in [-k, k] |
| `Simulation.ShortSumWraps` | src/sim.c:152-155 | 32768 replicas with a particle at the same site and shot leave -32768 in that cell |
| `Simulation.RunTableIsPlainSum` | src/sim.c:145-158 | for SUM up to 32767, every cell the replica loop produces is the plain sum over the replicas, bounded by their number, which is at most SUM and at most one more than the number completed |
| `Simulation.Simulator.constructor` | src/sim.c:108-141 | the rate table equals the accelerated `Normalized(A, B)`, the ring and table are zero and the counters are 0 |
| `Simulation.Simulator.Step` | src/sim.c:160-199 | the in-place step on `v` gives the ring, time tick and stream position of `Advance` |
| `Simulation.Simulator.TakeShot` | src/sim.c:152-158 | the ring is added into row `s` only, cell by cell with `short` wrap; every other row is unchanged; then `dt = 0` and `s` is incremented |
| `Simulation.Simulator.LoopPass` | src/sim.c:150-199 | one pass: `stopped` exactly when the draws cannot feed the step; the shot due is taken; then `v`, `dt` and the position are those of `Advance`, or unchanged when stopped; the table gains the shot and the state moves along `Run` |
| `Simulation.Simulator.ShotLoop` | src/sim.c:150-200 | the shot loop leaves `v`, `dt`, `s`, the position and whether it was starved as `Run` says, and adds row r of the run to row r of the table |
| `Simulation.Simulator.RunReplica` | src/sim.c:146-200 | the fill, `s = 0`, `dt = DT_SHOT` and the shot loop leave the state and the starved flag as `Replica` says and add its rows to the table |
| `Simulation.Simulator.Simulate` | src/sim.c:145-208 | the replica loop, stopping at a starved replica, ends with `k` equal to the number of completed replicas, which is SUM unless the draws ran out, and with each cell of `m` equal to the `short` sum of the rows all replicas recorded |

## Left out

- `p` and `exptheta` (src/sim.c:266-273) compute the fill thresholds with `sqrt` in `double`. The thresholds p1 and p2 of each half are inputs (`Fill.Thresholds`).
- The GSL generator is replaced by one finite sequence of draws in [0, 1). The program's generator never runs out. The model instead stops the shot loop or the replica loop when the draws cannot feed the next step or fill. `Run`, `Replicas` and `Simulate` describe that early stop as well. With an endless stream the loop could run forever, for example on a ring of holes (`Trajectory.HoleRingStalls`).
- `double` arithmetic (the rate table, `u * N`, the comparisons with the draws) is modelled over `real`, without rounding.
- Argument parsing, file opening, progress printing (src/sim.c:121-133, 143, 202-209) and the output loop that divides by SUM and writes the file (src/sim.c:211-222) are I/O and are not modelled.
- GSL allocation (src/sim.c:138-139) becomes `new` arrays in the constructor.
- The ring holds `char` values. The model assumes a signed `char`: with an unsigned one a stored -1 reads back as 255, and the test `a != -1` at src/sim.c:165 would never see a hole.
- Storing an out-of-range `int` into a `short` is implementation-defined in C. `Simulation.Short` models it as the usual two's-complement wrap.
- The counters `s`, `dt` and `k` are `unsigned int` in C and are modelled as `nat`. They never exceed SHOTS, DT_SHOT and SUM, so no wrap-around arises.
- Parameter validation: the program checks neither A, B, N, DT_SHOT nor SHOTS. The model follows the code and accepts every A and every B except -2 (the one value that divides by zero).
- `Simulation.Simulator.constructor`: requires N >= 1 and DT_SHOT >= 1. With N = 0 the program indexes an empty vector. With DT_SHOT = 0 a shot falls due whenever `dt` is 0, so shots continue only while the steps land on holes. Once a step counts time, `dt` would have to wrap around 2^32 before the next shot. The model's invariant 0 <= dt <= DT_SHOT does not hold in that case.

=== FILE: fill.dfy ===
/** The two-phase initial condition (`init_fill`).

    Each site draws one uniform value and is classified against the two
    thresholds of its half: sites [0, N/2) use the left thresholds, sites
    [N/2, N) the right ones. The thresholds themselves come from the target
    densities through square roots; here they are inputs. */
module Fill {
  import opened Ring

  /** Cut points of [0, 1): below `p1` a hole, below `p2` neutral, else a
      particle. */
  datatype Thresholds = Thresholds(p1: real, p2: real)

  /** Classification of one draw against one pair of thresholds. */
  function Classify(u: real, t: Thresholds): (x: int)
    ensures IsState(x)
    ensures x == -1 <==> u < t.p1
    ensures x == 0 <==> t.p1 <= u < t.p2
    ensures x == 1 <==> t.p1 <= u && t.p2 <= u
  {
    if u < t.p1 then -1 else if u < t.p2 then 0 else 1
  }

  /** A larger draw never gives a smaller state: the thresholds cut [0, 1)
      into consecutive intervals for hole, neutral and particle, whatever the
      order of `p1` and `p2`. */
  lemma ClassifyMonotone(u: real, u': real, t: Thresholds)
    requires u <= u'
    ensures Classify(u, t) <= Classify(u', t)
  {
  }

  /** The ring `init_fill` produces from the draws `us`, site i taking the
      i-th draw. */
  function FillRing(us: seq<real>, left: Thresholds, right: Thresholds): (r: seq<int>)
    ensures |r| == |us| && States(r)
    ensures forall i :: 0 <= i < |us| / 2 ==> r[i] == Classify(us[i], left)
    ensures forall i :: |us| / 2 <= i < |us| ==> r[i] == Classify(us[i], right)
  {
    seq(|us|, i requires 0 <= i < |us| => Classify(us[i], if i < |us| / 2 then left else right))
  }

  /** With the same thresholds on both sides (vl == vr) the initial
      condition is homogeneous: every site is classified the same way. */
  lemma UniformFill(us: seq<real>, t: Thresholds)
    ensures forall i :: 0 <= i < |us| ==> FillRing(us, t, t)[i] == Classify(us[i], t)
  {
  }

  /** `init_fill`: overwrites every site of `vec`, the left half in a first
      loop and the right half in a second, consuming the draws in order. */
  method InitFill(vec: array<int>, us: seq<real>, left: Thresholds, right: Thresholds)
    requires |us| == vec.Length
    modifies vec
    ensures vec[..] == FillRing(us, left, right)
  {
    var n := vec.Length;
    var i := 0;
    while i < n / 2
      invariant 0 <= i <= n / 2
      invariant forall j :: 0 <= j < i ==> vec[j] == Classify(us[j], left)
    {
      var u := us[i];
      if u < left.p1 {
        vec[i] := -1;
      } else if u < left.p2 {
        vec[i] := 0;
      } else {
        vec[i] := 1;
      }
      i := i + 1;
    }
    i := n / 2;
    while i < n
      invariant n / 2 <= i <= n
      invariant forall j :: 0 <= j < n / 2 ==> vec[j] == Classify(us[j], left)
      invariant forall j :: n / 2 <= j < i ==> vec[j] == Classify(us[j], right)
    {
      var u := us[i];
      if u < right.p1 {
        vec[i] := -1;
      } else if u < right.p2 {
        vec[i] := 0;
      } else {
        vec[i] := 1;
      }
      i := i + 1;
    }
  }
}

=== FILE: rates.dfy ===
/** The table of acceptance probabilities of the four local rewrites.

    The process has rates c(0,-1) = (1-A)/2, c(1,0) = (1+A)/2, c(1,-1) = 1
    and c(0,0) = B between neighbouring sites. Each is divided by 2 + B and
    then the whole table is divided by its largest entry ("time
    acceleration"), so that the fastest rewrite is always accepted.
    Computed over `real`, an idealisation of the `double` arithmetic. */
module Rates {

  /** Acceptance probabilities of the rewrites (a) 0- => -0, (b) +0 => 0+,
      (c) +- => 00 and (d) 00 => -+. */
  datatype Probabilities = Probabilities(pa: real, pb: real, pc: real, pd: real)

  /** The `MAX` macro: the first argument when it is strictly larger. */
  function Max(x: real, y: real): (r: real)
    ensures r >= x && r >= y
    ensures r == x || r == y
  {
    if x > y then x else y
  }

  /** The largest of the four entries, folded left to right as the source does. */
  function Largest(p: Probabilities): (r: real)
    ensures r >= p.pa && r >= p.pb && r >= p.pc && r >= p.pd
    ensures r == p.pa || r == p.pb || r == p.pc || r == p.pd
  {
    Max(Max(Max(p.pa, p.pb), p.pc), p.pd)
  }

  /** The rates divided by 2 + B, before acceleration. */
  function Unscaled(a: real, b: real): Probabilities
    requires b != -2.0
  {
    Probabilities((1.0 - a) / 2.0 / (2.0 + b), (1.0 + a) / 2.0 / (2.0 + b),
                  1.0 / (2.0 + b), b / (2.0 + b))
  }

  /** Facts about division by a constant that the solver does not find unaided. */
  lemma DivOrder(x: real, y: real, d: real)
    requires d > 0.0
    ensures x > y <==> x / d > y / d
    ensures x <= y ==> x / d <= y / d
  {
  }

  lemma DivSign(x: real, d: real)
    requires d != 0.0
    ensures (x > 0.0 && d > 0.0) || (x < 0.0 && d < 0.0) ==> x / d > 0.0
    ensures x >= 0.0 && d > 0.0 ==> x / d >= 0.0
  {
  }

  lemma DivScale(x: real, y: real, d: real)
    requires d != 0.0
    ensures (x * y) / d == (x / d) * y
  {
  }

  /** Dividing by a positive constant commutes with `Max`. */
  lemma MaxScales(x: real, y: real, d: real)
    requires d > 0.0
    ensures Max(x / d, y / d) == Max(x, y) / d
  {
    DivOrder(x, y, d);
  }

  /** Dividing by a positive constant commutes with taking the largest entry. */
  lemma LargestScales(p: Probabilities, d: real)
    requires d > 0.0
    ensures Largest(Probabilities(p.pa / d, p.pb / d, p.pc / d, p.pd / d)) == Largest(p) / d
  {
    MaxScales(p.pa, p.pb, d);
    MaxScales(Max(p.pa, p.pb), p.pc, d);
    MaxScales(Max(Max(p.pa, p.pb), p.pc), p.pd, d);
  }

  /** The largest unscaled entry is positive whenever it is defined: when
      B > -2 the entry for (c) is, and when B < -2 the entry for (d) is. */
  lemma UnscaledLargestPositive(a: real, b: real)
    requires b != -2.0
    ensures Largest(Unscaled(a, b)) > 0.0
  {
    if b > -2.0 {
      DivSign(1.0, 2.0 + b);
    } else {
      DivSign(b, 2.0 + b);
    }
  }

  /** The accelerated table: every entry divided by the largest one. */
  function Normalized(a: real, b: real): Probabilities
    requires b != -2.0
  {
    var u := Unscaled(a, b);
    var p0 := Largest(u);
    Probabilities(u.pa / p0, u.pb / p0, u.pc / p0, u.pd / p0)
  }

  /** After acceleration the fastest rewrite is always accepted: the largest
      entry is exactly 1, so none exceeds 1. */
  lemma NormalizedLargestIsOne(a: real, b: real)
    requires b != -2.0
    ensures var p := Normalized(a, b);
      Largest(p) == 1.0 && p.pa <= 1.0 && p.pb <= 1.0 && p.pc <= 1.0 && p.pd <= 1.0
  {
    UnscaledLargestPositive(a, b);
    ScaledLargestIsOne(Unscaled(a, b));
  }

  /** Any table with a positive largest entry, divided by that entry, has
      largest entry 1. */
  lemma ScaledLargestIsOne(u: Probabilities)
    requires Largest(u) > 0.0
    ensures var p0 := Largest(u);
      var p := Probabilities(u.pa / p0, u.pb / p0, u.pc / p0, u.pd / p0);
      Largest(p) == 1.0 && p.pa <= 1.0 && p.pb <= 1.0 && p.pc <= 1.0 && p.pd <= 1.0
  {
    LargestScales(u, Largest(u));
  }

  /** Within the physical domain B >= 0, |A| <= 1 every entry is a
      probability. */
  lemma NormalizedInUnitInterval(a: real, b: real)
    requires b >= 0.0 && -1.0 <= a <= 1.0
    ensures var p := Normalized(a, b);
      0.0 <= p.pa <= 1.0 && 0.0 <= p.pb <= 1.0 && 0.0 <= p.pc <= 1.0 && 0.0 <= p.pd <= 1.0
  {
    NormalizedLargestIsOne(a, b);
    EntryNonNegative(a, b, (1.0 - a) / 2.0, Unscaled(a, b).pa, Normalized(a, b).pa);
    EntryNonNegative(a, b, (1.0 + a) / 2.0, Unscaled(a, b).pb, Normalized(a, b).pb);
    EntryNonNegative(a, b, 1.0, Unscaled(a, b).pc, Normalized(a, b).pc);
    EntryNonNegative(a, b, b, Unscaled(a, b).pd, Normalized(a, b).pd);
  }

  /** A non-negative rate stays non-negative through both divisions. */
  lemma EntryNonNegative(a: real, b: real, rate: real, x: real, px: real)
    requires b >= 0.0 && rate >= 0.0
    requires x == rate / (2.0 + b) && px == x / Largest(Unscaled(a, b))
    ensures px >= 0.0
  {
    UnscaledLargestPositive(a, b);
    DivSign(rate, 2.0 + b);
    DivSign(x, Largest(Unscaled(a, b)));
  }

  /** Acceleration keeps the ratios of the rates: relative to the entry of
      (c), whose rate is 1, the others are (1-A)/2, (1+A)/2 and B, so the
      moves (a) and (b) share the rate of the annihilation between them. */
  lemma NormalizedProportional(a: real, b: real)
    requires b != -2.0
    ensures var p := Normalized(a, b);
      p.pa == p.pc * ((1.0 - a) / 2.0) && p.pb == p.pc * ((1.0 + a) / 2.0) && p.pd == p.pc * b
    ensures var p := Normalized(a, b); p.pa + p.pb == p.pc
  {
    EntryProportional(a, b, (1.0 - a) / 2.0, Unscaled(a, b).pa, Normalized(a, b).pa);
    EntryProportional(a, b, (1.0 + a) / 2.0, Unscaled(a, b).pb, Normalized(a, b).pb);
    EntryProportional(a, b, b, Unscaled(a, b).pd, Normalized(a, b).pd);
  }

  /** An unscaled entry `rate / (2 + B)`, once accelerated, is `rate` times
      the accelerated entry of (c). */
  lemma EntryProportional(a: real, b: real, rate: real, x: real, px: real)
    requires b != -2.0 && x == rate / (2.0 + b) && px == x / Largest(Unscaled(a, b))
    ensures px == Normalized(a, b).pc * rate
  {
    var u := Unscaled(a, b);
    UnscaledLargestPositive(a, b);
    var p0 := Largest(u);
    assert u.pc == 1.0 / (2.0 + b);
    assert Normalized(a, b).pc == u.pc / p0;
    ScaledRate(x, rate, u.pc, 2.0 + b, p0, px, Normalized(a, b).pc);
  }

  /** One entry of the table divided twice, first by 2 + B and then by the
      largest entry, stays proportional to the entry of rate 1. */
  lemma ScaledRate(x: real, rate: real, unit: real, q: real, p0: real, px: real, pu: real)
    requires q != 0.0 && p0 > 0.0 && x == rate / q && unit == 1.0 / q
    requires px == x / p0 && pu == unit / p0
    ensures px == pu * rate
  {
    DivScale(1.0, rate, q);
    assert x == unit * rate;
    DivScale(unit, rate, p0);
  }

  /** For 0 <= B <= 1 and |A| <= 1 (the default B is 0.005) the annihilation
      +- => 00 is the fastest rewrite: its probability is 1 and the other
      three probabilities are the rates themselves. */
  lemma AnnihilationFastest(a: real, b: real)
    requires 0.0 <= b <= 1.0 && -1.0 <= a <= 1.0
    ensures Normalized(a, b) == Probabilities((1.0 - a) / 2.0, (1.0 + a) / 2.0, 1.0, b)
  {
    var u := Unscaled(a, b);
    var q := 2.0 + b;
    DivOrder((1.0 - a) / 2.0, 1.0, q);
    DivOrder((1.0 + a) / 2.0, 1.0, q);
    DivOrder(b, 1.0, q);
    DivSign(1.0, q);
    assert Largest(u) == u.pc;
    NormalizedProportional(a, b);
  }

  /** For B > 1 the dissociation 00 => -+ is the fastest rewrite and the
      annihilation is accepted with probability 1/B. */
  lemma DissociationFastest(a: real, b: real)
    requires b > 1.0 && -1.0 <= a <= 1.0
    ensures Normalized(a, b).pd == 1.0 && Normalized(a, b).pc == 1.0 / b
  {
    var u := Unscaled(a, b);
    var q := 2.0 + b;
    DivOrder((1.0 - a) / 2.0, b, q);
    DivOrder((1.0 + a) / 2.0, b, q);
    DivOrder(1.0, b, q);
    DivSign(b, q);
    assert Largest(u) == u.pd;
    NormalizedProportional(a, b);
  }
}

=== FILE: ring.dfy ===
/** The ring of sites and one elementary jump step of the process.

    Every site holds -1 (hole), 0 (neutral) or 1 (particle). A step picks a
    site `ia` uniformly, looks at the directed edge from `ia` to its right
    neighbour `ib = (ia + 1) % N`, and when the left site is not a hole it
    counts one unit of time and tries the rewrite that matches the pair. */
module Ring {
  import opened Rates

  datatype Option<T> = None | Some(value: T)

  predicate IsState(x: int) {
    x == -1 || x == 0 || x == 1
  }

  predicate States(ring: seq<int>) {
    forall i :: 0 <= i < |ring| ==> IsState(ring[i])
  }

  /** A value of the uniform generator, which lies in [0, 1). */
  predicate IsDraw(u: real) {
    0.0 <= u < 1.0
  }

  predicate Draws(us: seq<real>) {
    forall i :: 0 <= i < |us| ==> IsDraw(us[i])
  }

  /** Total of the ring values: particles minus holes. */
  function Sum(ring: seq<int>): int {
    if ring == [] then 0 else ring[0] + Sum(ring[1..])
  }

  /** Overwriting one site changes the total by the difference. */
  lemma {:induction false} SumUpdate(ring: seq<int>, i: nat, x: int)
    requires i < |ring|
    ensures Sum(ring[i := x]) == Sum(ring) - ring[i] + x
  {
    if i == 0 {
      assert ring[i := x][1..] == ring[1..];
    } else {
      assert ring[i := x][1..] == ring[1..][i - 1 := x];
      SumUpdate(ring[1..], i - 1, x);
    }
  }

  /** The right neighbour on the torus: the next index, and 0 after N - 1. */
  function Successor(i: nat, n: nat): (j: nat)
    requires i < n
    ensures j < n
    ensures j == i + 1 || (i == n - 1 && j == 0)
  {
    (i + 1) % n
  }

  /** The site selected by a draw: floor(u * N). */
  function SiteIndex(u: real, n: nat): (ia: nat)
    requires IsDraw(u) && n > 0
    ensures ia < n
  {
    var x := u * n as real;
    assert x < n as real;
    x.Floor
  }

  /** Every site owns the interval [i/N, (i+1)/N) of draws, so each site is
      selected with the same probability 1/N. */
  lemma SiteIndexInterval(u: real, n: nat, i: nat)
    requires IsDraw(u) && n > 0
    ensures SiteIndex(u, n) == i <==> i as real / n as real <= u < (i + 1) as real / n as real
  {
    var x := u * n as real;
    var nr := n as real;
    assert u == x / nr;
    assert i as real <= x <==> i as real / nr <= x / nr;
    assert x < (i + 1) as real <==> x / nr < (i + 1) as real / nr;
  }

  /** The four rewrites: (a) 0- => -0, (b) +0 => 0+, (c) +- => 00,
      (d) 00 => -+. */
  datatype Rewrite = HoleLeft | ParticleRight | Annihilate | Dissociate

  /** The pair (a, b) a rewrite applies to: a pair of states whose left site
      is never a hole, so a step that matches a rewrite counts time. */
  function Lhs(w: Rewrite): (pair: (int, int))
    ensures IsState(pair.0) && IsState(pair.1) && pair.0 != -1
  {
    match w
    case HoleLeft => (0, -1)
    case ParticleRight => (1, 0)
    case Annihilate => (1, -1)
    case Dissociate => (0, 0)
  }

  /** The pair a rewrite leaves behind: it keeps a + b, produces states and
      always changes the right-hand site. */
  function Rhs(w: Rewrite): (r: (int, int))
    ensures r.0 + r.1 == Lhs(w).0 + Lhs(w).1
    ensures IsState(r.0) && IsState(r.1)
    ensures r.1 != Lhs(w).1
  {
    match w
    case HoleLeft => (-1, 0)
    case ParticleRight => (0, 1)
    case Annihilate => (0, 0)
    case Dissociate => (-1, 1)
  }

  /** The acceptance probability of a rewrite: its own entry of the table,
      hence at most the largest entry. */
  function Probability(w: Rewrite, p: Probabilities): (r: real)
    ensures r == p.pa || r == p.pb || r == p.pc || r == p.pd
    ensures r <= Largest(p)
  {
    match w
    case HoleLeft => p.pa
    case ParticleRight => p.pb
    case Annihilate => p.pc
    case Dissociate => p.pd
  }

  /** The dispatch on the pair: first on a, then on b. It finds a rewrite
      exactly when the pair is the left-hand side of one. */
  function RewriteFor(a: int, b: int): (w: Option<Rewrite>)
    ensures w.Some? ==> Lhs(w.value) == (a, b)
    ensures w.None? ==> forall r: Rewrite :: Lhs(r) != (a, b)
  {
    if a == 0 then
      if b == -1 then Some(HoleLeft) else if b == 0 then Some(Dissociate) else None
    else if a == 1 then
      if b == -1 then Some(Annihilate) else if b == 0 then Some(ParticleRight) else None
    else
      None
  }

  /** Whether the step at `ia` counts one unit of time: its site is not a hole. */
  predicate Advances(ring: seq<int>, ia: nat)
    requires ia < |ring|
    ensures States(ring) ==> (Advances(ring, ia) <==> ring[ia] == 0 || ring[ia] == 1)
  {
    ring[ia] != -1
  }

  /** Whether the step at `ia` takes an acceptance draw: some rewrite matches
      the pair (which implies the left site is not a hole). */
  predicate NeedsDraw(ring: seq<int>, ia: nat)
    requires ia < |ring|
    ensures NeedsDraw(ring, ia) ==> Advances(ring, ia)
  {
    RewriteFor(ring[ia], ring[Successor(ia, |ring|)]).Some?
  }

  /** One elementary step at site `ia` with acceptance draw `u`. The two
      writes are sequential, so on a ring of one site the second wins. */
  function StepRing(ring: seq<int>, ia: nat, u: real, p: Probabilities): (r: seq<int>)
    requires ia < |ring|
    ensures |r| == |ring|
    ensures forall j :: 0 <= j < |ring| && j != ia && j != Successor(ia, |ring|) ==> r[j] == ring[j]
    ensures States(ring) ==> States(r)
  {
    var ib := Successor(ia, |ring|);
    if ring[ia] == -1 then ring
    else
      match RewriteFor(ring[ia], ring[ib])
      case None => ring
      case Some(w) => if u < Probability(w, p) then ring[ia := Rhs(w).0][ib := Rhs(w).1] else ring
  }

  /** A step changes the ring exactly when a rewrite matches the pair and
      the draw is strictly below its probability. */
  lemma StepChangesIff(ring: seq<int>, ia: nat, u: real, p: Probabilities)
    requires ia < |ring|
    ensures var w := RewriteFor(ring[ia], ring[Successor(ia, |ring|)]);
      StepRing(ring, ia, u, p) != ring <==> w.Some? && u < Probability(w.value, p)
  {
    var ib := Successor(ia, |ring|);
    var w := RewriteFor(ring[ia], ring[ib]);
    if w.Some? && u < Probability(w.value, p) {
      assert StepRing(ring, ia, u, p)[ib] == Rhs(w.value).1 != ring[ib];
    }
  }

  /** A step at a hole changes nothing (and, by `Advances`, takes no time). */
  lemma HoleStepIsIdle(ring: seq<int>, ia: nat, u: real, p: Probabilities)
    requires ia < |ring| && ring[ia] == -1
    ensures StepRing(ring, ia, u, p) == ring && !Advances(ring, ia) && !NeedsDraw(ring, ia)
  {
  }

  /** On a ring of at least two sites every step keeps the total: each
      rewrite keeps a + b and the two sites are distinct. */
  lemma {:induction false} StepConservesSum(ring: seq<int>, ia: nat, u: real, p: Probabilities)
    requires 2 <= |ring| && ia < |ring|
    ensures Sum(StepRing(ring, ia, u, p)) == Sum(ring)
  {
    var ib := Successor(ia, |ring|);
    var w := RewriteFor(ring[ia], ring[ib]);
    if ring[ia] != -1 && w.Some? && u < Probability(w.value, p) {
      var x, y := Rhs(w.value).0, Rhs(w.value).1;
      assert ia != ib;
      SumUpdate(ring, ia, x);
      SumUpdate(ring[ia := x], ib, y);
    }
  }

  /** On a ring of one site the edge is a loop: the pair (0, 0) is
      dissociated into a single particle and the total changes. */
  lemma SingleSiteBreaksConservation(p: Probabilities)
    requires p.pd > 0.0
    ensures StepRing([0], 0, 0.0, p) == [1]
    ensures Sum(StepRing([0], 0, 0.0, p)) != Sum([0])
  {
  }
}

=== FILE: simulation.dfy ===
/** The simulator as the program runs it: the ring `v` is an array of N
    cells, the accumulator `m` a SHOTS x N table of 16-bit signed cells, and
    the counters `s` (shots of the current replica), `dt` (time since the
    last shot) and `k` (finished replicas) are updated in place. Each method
    is proved against the functions of the `Trajectory` and `Ring` modules. */
module Simulation {
  import opened Rates
  import opened Ring
  import opened Fill
  import opened Trajectory

  /** The value a C `short` cell holds after storing `x`: `x` reduced into
      [-32768, 32767] modulo 2^16. */
  function Short(x: int): (r: int)
    ensures -32768 <= r <= 32767
    ensures -32768 <= x <= 32767 ==> r == x
    decreases if x > 32767 then x - 32767 else if x < -32768 then -32768 - x else 0
  {
    if x > 32767 then Short(x - 65536)
    else if x < -32768 then Short(x + 65536)
    else x
  }

  lemma {:induction false} ShortIsModular(x: int)
    ensures (x - Short(x)) % 65536 == 0
    decreases if x > 32767 then x - 32767 else if x < -32768 then -32768 - x else 0
  {
    if x > 32767 {
      ShortIsModular(x - 65536);
    } else if x < -32768 {
      ShortIsModular(x + 65536);
    }
  }

  /** The accumulator cell (r, i) after the given replicas were added, in
      order, to a zero cell: a replica with a row r adds its value at site
      i and the cell wraps as a `short`; one without leaves the cell alone. */
  function ShortSum(replicas: seq<seq<seq<int>>>, r: nat, i: nat): (x: int)
    ensures -32768 <= x <= 32767
  {
    if replicas == [] then 0
    else
      var last := replicas[|replicas| - 1];
      var prior := ShortSum(replicas[..|replicas| - 1], r, i);
      if r < |last| && i < |last[r]| then Short(prior + last[r][i]) else prior
  }

  /** With at most 32767 replicas of states nothing wraps: the cell is the
      plain sum over replicas, hence between -k and k. */
  lemma {:induction false} ShortSumExact(replicas: seq<seq<seq<int>>>, r: nat, i: nat)
    requires |replicas| <= 32767
    requires forall j :: 0 <= j < |replicas| ==> forall q :: 0 <= q < |replicas[j]| ==> States(replicas[j][q])
    ensures ShortSum(replicas, r, i) == CellSum(replicas, r, i)
    ensures -|replicas| <= ShortSum(replicas, r, i) <= |replicas|
  {
    if replicas != [] {
      var prefix := replicas[..|replicas| - 1];
      ShortSumExact(prefix, r, i);
      CellSumBounded(replicas, r, i);
      var last := replicas[|replicas| - 1];
      if r < |last| && i < |last[r]| {
        assert IsState(last[r][i]);
      }
    }
  }

  /** Past 32767 replicas the table can wrap: 32768 replicas whose only row
      is a single particle leave -32768 in cell (0, 0), not 32768. */
  lemma ShortSumWraps()
    ensures ShortSum(seq(32768, _ => [[1]]), 0, 0) == -32768
  {
    var full := seq(32768, _ => [[1]]);
    PlainSumOfParticles(full, 32767);
    assert full[..32767] == seq(32767, _ => [[1]]);
  }

  /** Adding a particle from each of the first `j` replicas counts up by one. */
  lemma {:induction false} PlainSumOfParticles(full: seq<seq<seq<int>>>, j: nat)
    requires j <= |full| && forall q :: 0 <= q < |full| ==> full[q] == [[1]]
    ensures ShortSum(full[..j], 0, 0) == j || j > 32767
  {
    if 0 < j <= 32767 {
      PlainSumOfParticles(full, j - 1);
      assert full[..j][..j - 1] == full[..j - 1];
    }
  }

  /** With at most 32767 replicas requested (SUM is 100 by default) the
      table the replica loop leaves never wraps: each cell is the plain sum
      over replicas of their value at that site and shot, so its magnitude
      is at most the number of replicas, which is at most SUM and at most one
      more than the number that finished. */
  lemma RunTableIsPlainSum(c: Config, left: Thresholds, right: Thresholds, draws: seq<real>, sum: nat, r: nat, i: nat)
    requires ValidConfig(c) && Draws(draws) && sum <= 32767
    ensures var rec := Replicas(c, left, right, draws, 0, sum);
      ShortSum(rec.replicas, r, i) == CellSum(rec.replicas, r, i)
      && -|rec.replicas| <= ShortSum(rec.replicas, r, i) <= |rec.replicas| <= rec.completed + 1
      && |rec.replicas| <= sum
  {
    var rec := Replicas(c, left, right, draws, 0, sum);
    ReplicasCounts(c, left, right, draws, 0, sum);
    ReplicasRows(c, left, right, draws, 0, sum);
    forall j, q | 0 <= j < |rec.replicas| && 0 <= q < |rec.replicas[j]|
      ensures States(rec.replicas[j][q])
    {
      assert Recorded(c, rec.replicas[j]);
    }
    ShortSumExact(rec.replicas, r, i);
  }

  class Simulator {
    /** N, DT_SHOT, SHOTS and SUM, and the accelerated rate table. */
    const n: nat
    const dtShot: nat
    const shots: nat
    const sum: nat
    const probs: Probabilities
    /** The ring (`gsl_vector_char`) and the accumulator (`gsl_matrix_short`). */
    const v: array<int>
    const m: array2<int>
    /** Shots taken in the current replica, steps since the last shot, and
        finished replicas. */
    var s: nat
    var dt: nat
    var k: nat

    predicate Valid()
    {
      n >= 1 && dtShot >= 1 && v.Length == n && m.Length0 == shots && m.Length1 == n
    }

    function Settings(): Config
    {
      Config(n, dtShot, shots, probs)
    }

    /** The set-up before the replica loop: the rate table is computed and
        accelerated, the ring and the table are allocated zeroed and the
        counters start at 0. */
    constructor (n: nat, dtShot: nat, shots: nat, sum: nat, a: real, b: real)
      requires n >= 1 && dtShot >= 1 && b != -2.0
      ensures Valid() && fresh(v) && fresh(m)
      ensures this.n == n && this.dtShot == dtShot && this.shots == shots && this.sum == sum
      ensures probs == Normalized(a, b)
      ensures k == 0 && dt == 0 && s == 0
      ensures forall i :: 0 <= i < n ==> v[i] == 0
      ensures forall r, i :: 0 <= r < shots && 0 <= i < n ==> m[r, i] == 0
    {
      var pa := (1.0 - a) / 2.0 / (2.0 + b);
      var pb := (1.0 + a) / 2.0 / (2.0 + b);
      var pc := 1.0 / (2.0 + b);
      var pd := b / (2.0 + b);
      UnscaledLargestPositive(a, b);
      var p0 := Max(Max(Max(pa, pb), pc), pd);
      this.n, this.dtShot, this.shots, this.sum := n, dtShot, shots, sum;
      probs := Probabilities(pa / p0, pb / p0, pc / p0, pd / p0);
      v := new int[n](_ => 0);
      m := new int[shots, n]((_, _) => 0);
      k, dt, s := 0, 0, 0;
    }

    /** One elementary step read from draw `pos`: it returns the next unread
        draw, updates the ring as `Advance` says and counts one unit of
        time when the selected site is not a hole. */
    method Step(draws: seq<real>, pos: nat) returns (next: nat)
      requires Valid() && Draws(draws) && pos <= |draws| && !Starved(Settings(), v[..], draws, pos)
      modifies v, this`dt
      ensures var mv := Advance(Settings(), old(v[..]), draws, pos);
        v[..] == mv.ring && dt == old(dt) + mv.tick && next == mv.pos
    {
      ghost var ring := v[..];
      var ia := SiteIndex(draws[pos], n);
      var a := v[ia];
      next := pos + 1;
      if a != -1 {
        dt := dt + 1;
        var ib := (ia + 1) % n;
        var b := v[ib];
        assert b == ring[Successor(ia, n)];
        if a == 0 {
          if b == -1 {
            var p0 := draws[pos + 1];
            next := pos + 2;
            if p0 < probs.pa {
              v[ia] := -1;
              v[ib] := 0;
            }
          } else if b == 0 {
            var p0 := draws[pos + 1];
            next := pos + 2;
            if p0 < probs.pd {
              v[ia] := -1;
              v[ib] := 1;
            }
          }
        } else if a == 1 {
          if b == -1 {
            var p0 := draws[pos + 1];
            next := pos + 2;
            if p0 < probs.pc {
              v[ia] := 0;
              v[ib] := 0;
            }
          } else if b == 0 {
            var p0 := draws[pos + 1];
            next := pos + 2;
            if p0 < probs.pb {
              v[ia] := 0;
              v[ib] := 1;
            }
          }
        }
      }
    }

    /** Taking a shot: the ring is added into row `s` of the table (each
        cell wrapping as a `short`), `dt` is reset and `s` incremented. */
    method TakeShot()
      requires Valid() && s < shots
      modifies m, this`dt, this`s
      ensures s == old(s) + 1 && dt == 0
      ensures forall r, i :: 0 <= r < shots && 0 <= i < n ==>
        m[r, i] == if r == old(s) then Short(old(m[r, i]) + v[i]) else old(m[r, i])
    {
      var i := 0;
      while i < n
        invariant 0 <= i <= n && s == old(s)
        invariant forall r, j :: 0 <= r < shots && 0 <= j < n ==>
          m[r, j] == if r == s && j < i then Short(old(m[r, j]) + v[j]) else old(m[r, j])
      {
        m[s, i] := Short(m[s, i] + v[i]);
        i := i + 1;
      }
      dt := 0;
      s := s + 1;
    }

    /** One pass of the shot loop from draw `pos`: a shot when `dt` has
        reached DT_SHOT, then one step as `Advance` says, unless the draws
        cannot feed it (`stopped`). The trajectory from the new state is the
        rest of the trajectory from the old one, after the row the shot
        recorded. */
    method LoopPass(draws: seq<real>, pos: nat, ghost base: seq<seq<int>>, ghost rows: seq<seq<int>>)
      returns (next: nat, stopped: bool)
      requires Valid() && Draws(draws) && pos <= |draws| && s < shots && dt <= dtShot
      requires Holds(base, rows) && |rows| == s
      modifies v, m, this`dt, this`s
      ensures stopped == Starved(Settings(), old(v[..]), draws, pos)
      ensures s == if old(dt) == dtShot then old(s) + 1 else old(s)
      ensures var dt1 := if old(dt) == dtShot then 0 else old(dt);
        (stopped ==> v[..] == old(v[..]) && dt == dt1 && next == pos)
        && (!stopped ==> var mv := Advance(Settings(), old(v[..]), draws, pos);
              v[..] == mv.ring && dt == dt1 + mv.tick && next == mv.pos)
      ensures dt <= dtShot && next <= |draws| && (stopped || pos < next)
      ensures var shot := if old(dt) == dtShot then [old(v[..])] else [];
        Continues(Run(Settings(), old(v[..]), old(dt), old(s), draws, pos), shot,
                  if stopped then Outcome([], v[..], dt, s, next, 0, true) else Run(Settings(), v[..], dt, s, draws, next))
      ensures Holds(base, rows + if old(dt) == dtShot then [old(v[..])] else [])
    {
      ghost var c := Settings();
      ghost var ring, dt0, s0 := v[..], dt, s;
      ghost var shot: seq<seq<int>> := [];
      if dt == dtShot {
        TakeShot();
        shot := [ring];
      }
      assert rows + shot == rows + if dt0 == dtShot then [ring] else [];
      forall r, i | 0 <= r < shots && 0 <= i < n
        ensures m[r, i] == if r < |rows + shot| then Short(base[r][i] + (rows + shot)[r][i]) else base[r][i]
      {
        if r < |rows| {
          assert (rows + shot)[r] == rows[r];
        }
      }
      stopped := Starved(Settings(), v[..], draws, pos);
      if stopped {
        next := pos;
        RunLastPass(c, ring, dt0, s0, draws, pos, shot, dt, s);
        return;
      }
      ghost var dt1 := dt;
      next := Step(draws, pos);
      RunPass(c, ring, dt0, s0, draws, pos, shot, dt1, s, v[..], dt, next);
    }

    /** The shot loop of a replica, entered with no shot taken: passes are
        made until SHOTS shots are taken or the draws run out. The ring, the
        counters and whether it was starved end as `Run` says, and row r of
        the table has row r of that run added to it. */
    method ShotLoop(draws: seq<real>, pos: nat, ghost base: seq<seq<int>>) returns (next: nat, stopped: bool)
      requires Valid() && Draws(draws) && pos <= |draws| && s == 0 && dt <= dtShot
      requires Holds(base, [])
      modifies v, m, this`dt, this`s
      ensures var out := Run(Settings(), old(v[..]), old(dt), 0, draws, pos);
        v[..] == out.ring && dt == out.dt && s == out.s && next == out.pos && stopped == out.starved
        && Holds(base, out.rows)
    {
      ghost var c := Settings();
      ghost var out := Run(c, v[..], dt, s, draws, pos);
      ContinuesStart(out);
      next := pos;
      stopped := false;
      ghost var taken: seq<seq<int>> := [];
      while s < shots && !stopped
        invariant dt <= dtShot && s <= shots && next <= |draws| && |taken| == s
        invariant Continues(out, taken, if stopped then Outcome([], v[..], dt, s, next, 0, true) else Run(c, v[..], dt, s, draws, next))
        invariant Holds(base, taken)
        decreases |draws| - next, if stopped then 0 else 1
      {
        ghost var taken0 := taken;
        ghost var before := Run(c, v[..], dt, s, draws, next);
        ghost var shot: seq<seq<int>> := [];
        if dt == dtShot {
          shot := [v[..]];
        }
        next, stopped := LoopPass(draws, next, base, taken);
        taken := taken + shot;
        ghost var after := if stopped then Outcome([], v[..], dt, s, next, 0, true) else Run(c, v[..], dt, s, draws, next);
        ContinuesTrans(out, taken0, before, shot, after);
      }
      assert out.rows == taken;
    }

    /** One replica: the initial fill from the N draws at `pos`, then the
        shot loop with the first shot due at once. The ring, the counters
        and whether it was starved end as `Replica` says, and the replica's
        rows are added to the first rows of the table. */
    method RunReplica(draws: seq<real>, pos: nat, left: Thresholds, right: Thresholds, ghost base: seq<seq<int>>)
      returns (next: nat, stopped: bool)
      requires Valid() && Draws(draws) && pos + n <= |draws| && Holds(base, [])
      modifies v, m, this`dt, this`s
      ensures var out := Replica(Settings(), left, right, draws, pos);
        v[..] == out.ring && dt == out.dt && s == out.s && next == out.pos && stopped == out.starved
        && Holds(base, out.rows)
    {
      ReplicaIsRun(Settings(), left, right, draws, pos);
      InitFill(v, draws[pos..pos + n], left, right);
      s := 0;
      dt := dtShot;
      next, stopped := ShotLoop(draws, pos + n, base);
    }

    /** The table holds `base` with `rows` added to its first rows, cell
        by cell, each sum wrapped as a `short`. */
    ghost predicate Holds(base: seq<seq<int>>, rows: seq<seq<int>>)
      requires Valid()
      reads m
    {
      Grid(base, shots, n) && |rows| <= shots && (forall r :: 0 <= r < |rows| ==> |rows[r]| == n)
      && forall r, i :: 0 <= r < shots && 0 <= i < n ==>
           m[r, i] == if r < |rows| then Short(base[r][i] + rows[r][i]) else base[r][i]
    }

    /** The replica loop: replicas are run while fewer than SUM have
        finished; the table ends as the `short` sum of the rows they
        recorded and `k` as the number that finished. Replicas run one
        after another on the one stream of draws. */
    method Simulate(draws: seq<real>, left: Thresholds, right: Thresholds)
      requires Valid() && Draws(draws) && k == 0
      requires forall r, i :: 0 <= r < shots && 0 <= i < n ==> m[r, i] == 0
      modifies v, m, this`dt, this`s, this`k
      ensures var rec := Replicas(Settings(), left, right, draws, 0, sum);
        k == rec.completed
        && (k == sum || |draws| - rec.pos < n || |draws| - rec.pos <= 1)
        && forall r, i :: 0 <= r < shots && 0 <= i < n ==> m[r, i] == ShortSum(rec.replicas, r, i)
    {
      ghost var c := Settings();
      ghost var total := Replicas(c, left, right, draws, 0, sum);
      ReplicasRunAll(c, left, right, draws, 0, sum);
      ghost var history: seq<seq<seq<int>>> := [];
      assert history + total.replicas == total.replicas;
      var p: nat := 0;
      while k < sum
        invariant k <= sum && p <= |draws| && |history| == k
        invariant Follows(total, history, k, Replicas(c, left, right, draws, p, sum - k))
        invariant Holds(SumTable(history, shots, n), [])
        decreases sum - k
      {
        if |draws| - p < n {
          FollowsEnd(c, left, right, draws, p, sum - k, total, history, k);
          return;
        }
        ghost var run := Replica(c, left, right, draws, p);
        FollowsPass(c, left, right, draws, p, sum - k, total, history, k);
        var stopped;
        p, stopped := RunReplica(draws, p, left, right, SumTable(history, shots, n));
        HoldsNext(history, run.rows);
        history := history + [run.rows];
        if stopped {
          return;
        }
        k := k + 1;
      }
      FollowsEnd(c, left, right, draws, p, sum - k, total, history, k);
    }

    /** Once a replica's rows are added to the sums over `history`, the table
        holds the sums over `history` and that replica. */
    lemma HoldsNext(history: seq<seq<seq<int>>>, rows: seq<seq<int>>)
      requires Valid() && Holds(SumTable(history, shots, n), rows)
      ensures Holds(SumTable(history + [rows], shots, n), [])
    {
      AppendShortSum(history, rows, n, shots);
    }
  }

  /** The sums over `history` as a table of `rows` rows of `cols` cells. */
  function SumTable(history: seq<seq<seq<int>>>, rows: nat, cols: nat): (t: seq<seq<int>>)
    ensures Grid(t, rows, cols)
    ensures forall r, i :: 0 <= r < rows && 0 <= i < cols ==> t[r][i] == ShortSum(history, r, i)
  {
    seq(rows, r requires 0 <= r => seq(cols, i requires 0 <= i => ShortSum(history, r, i)))
  }

  /** A table of `rows` rows of `cols` cells each. */
  predicate Grid(t: seq<seq<int>>, rows: nat, cols: nat) {
    |t| == rows && forall r :: 0 <= r < rows ==> |t[r]| == cols
  }

  /** The table after one more replica is the `short` sum over one more
      replica. */
  lemma AppendShortSum(history: seq<seq<seq<int>>>, rows: seq<seq<int>>, n: nat, shots: nat)
    requires |rows| <= shots
    requires forall r :: 0 <= r < |rows| ==> |rows[r]| == n
    ensures forall r, i :: 0 <= r < shots && 0 <= i < n ==>
      ShortSum(history + [rows], r, i)
        == if r < |rows| then Short(ShortSum(history, r, i) + rows[r][i]) else ShortSum(history, r, i)
  {
    assert (history + [rows])[..|history|] == history;
  }
}

=== FILE: trajectory.dfy ===
/** What one replica and the whole run record, as functions of the stream of
    uniform draws.

    A replica starts with the shot counter `s` at 0 and the time counter
    `dt` at DT_SHOT, so shot 0 is taken before any step. Each pass of its
    loop first takes a shot when `dt` has reached DT_SHOT (recording the ring
    as row `s`, resetting `dt` and incrementing `s`) and then performs one
    elementary step. The loop ends after the step that follows shot SHOTS,
    since the test `s < SHOTS` comes only at the top of a pass. The source
    draws from an endless generator; here the draws are a finite sequence,
    and the loop also stops when the sequence cannot feed the next step. */
module Trajectory {
  import opened Rates
  import opened Ring
  import opened Fill

  /** Ring size N, steps between shots DT_SHOT, shots per replica SHOTS and
      the accelerated rate table. */
  datatype Config = Config(n: nat, dtShot: nat, shots: nat, probs: Probabilities)

  /** A ring needs a site and the shot schedule a positive period. */
  predicate ValidConfig(c: Config) {
    c.n >= 1 && c.dtShot >= 1
  }

  /** Where a replica's loop stands when it stops: the rows it recorded, the
      ring, the counters, the next unread draw, how many steps counted
      toward the time budget, and whether it stopped for want of draws
      (`starved`) rather than after the step that follows the last shot. */
  datatype Outcome = Outcome(rows: seq<seq<int>>, ring: seq<int>, dt: nat, s: nat, pos: nat, attempts: nat, starved: bool)

  /** The draws from `pos` on cannot feed the next step: none is left for
      the site, or the site needs an acceptance draw and none is left. */
  predicate Starved(c: Config, ring: seq<int>, draws: seq<real>, pos: nat)
    requires ValidConfig(c) && |ring| == c.n && Draws(draws) && pos <= |draws|
  {
    pos == |draws| || (pos + 1 == |draws| && NeedsDraw(ring, SiteIndex(draws[pos], c.n)))
  }

  /** The effect of one elementary step on the ring, on the time counter
      and on the stream. */
  datatype Move = Move(ring: seq<int>, tick: nat, pos: nat)

  /** One elementary step fed from the stream: the site from draw `pos`,
      then, only when a rewrite matches its pair, the acceptance draw. */
  function Advance(c: Config, ring: seq<int>, draws: seq<real>, pos: nat): (m: Move)
    requires ValidConfig(c) && |ring| == c.n && Draws(draws) && pos <= |draws|
    requires !Starved(c, ring, draws, pos)
    ensures |m.ring| == c.n && m.tick <= 1 && pos < m.pos <= |draws|
    ensures m.pos == pos + if NeedsDraw(ring, SiteIndex(draws[pos], c.n)) then 2 else 1
    ensures States(ring) ==> States(m.ring)
  {
    var ia := SiteIndex(draws[pos], c.n);
    var needs := NeedsDraw(ring, ia);
    var u := if needs then draws[pos + 1] else 0.0;
    Move(StepRing(ring, ia, u, c.probs), if Advances(ring, ia) then 1 else 0, pos + if needs then 2 else 1)
  }

  /** A step counts one unit of time exactly when its site is not a hole,
      and on a ring of at least two sites it keeps the total. */
  lemma AdvanceFacts(c: Config, ring: seq<int>, draws: seq<real>, pos: nat)
    requires ValidConfig(c) && |ring| == c.n && Draws(draws) && pos < |draws|
    requires !Starved(c, ring, draws, pos)
    ensures var m := Advance(c, ring, draws, pos);
      (m.tick == 1 <==> ring[SiteIndex(draws[pos], c.n)] != -1)
      && (c.n >= 2 ==> Sum(m.ring) == Sum(ring))
  {
    var ia := SiteIndex(draws[pos], c.n);
    var needs := NeedsDraw(ring, ia);
    if c.n >= 2 {
      StepConservesSum(ring, ia, if needs then draws[pos + 1] else 0.0, c.probs);
    }
  }

  /** The shot loop from counters `dt` and `s`, reading draws from `pos`:
      it stops once SHOTS shots are taken, otherwise it makes a pass. */
  function Run(c: Config, ring: seq<int>, dt: nat, s: nat, draws: seq<real>, pos: nat): (out: Outcome)
    requires ValidConfig(c) && |ring| == c.n && dt <= c.dtShot && s <= c.shots
    requires Draws(draws) && pos <= |draws|
    ensures pos <= out.pos <= |draws|
    decreases |draws| - pos, 1
  {
    if s == c.shots then Outcome([], ring, dt, s, pos, 0, false) else Pass(c, ring, dt, s, draws, pos)
  }

  /** One pass of the loop body and the rest of the loop: the shot if one
      is due, then a step, or the end when the draws cannot feed the step. */
  function Pass(c: Config, ring: seq<int>, dt: nat, s: nat, draws: seq<real>, pos: nat): (out: Outcome)
    requires ValidConfig(c) && |ring| == c.n && dt <= c.dtShot && s < c.shots
    requires Draws(draws) && pos <= |draws|
    ensures pos <= out.pos <= |draws|
    decreases |draws| - pos, 0
  {
    var shoot := dt == c.dtShot;
    var rows := if shoot then [ring] else [];
    var dt1 := if shoot then 0 else dt;
    var s1 := if shoot then s + 1 else s;
    if Starved(c, ring, draws, pos) then Outcome(rows, ring, dt1, s1, pos, 0, true)
    else
      var m := Advance(c, ring, draws, pos);
      var rest := Run(c, m.ring, dt1 + m.tick, s1, draws, m.pos);
      Outcome(rows + rest.rows, rest.ring, rest.dt, rest.s, rest.pos, m.tick + rest.attempts, rest.starved)
  }

  /** One pass of the loop that performs a step: the outcome is the shot
      taken in this pass (if any) followed by the outcome of the rest. */
  lemma RunStep(c: Config, ring: seq<int>, dt: nat, s: nat, draws: seq<real>, pos: nat)
    requires ValidConfig(c) && |ring| == c.n && dt <= c.dtShot && s < c.shots
    requires Draws(draws) && pos <= |draws| && !Starved(c, ring, draws, pos)
    ensures var m := Advance(c, ring, draws, pos);
      var shoot := dt == c.dtShot;
      var rest := Run(c, m.ring, (if shoot then 0 else dt) + m.tick, if shoot then s + 1 else s, draws, m.pos);
      var out := Run(c, ring, dt, s, draws, pos);
      out.rows == (if shoot then [ring] else []) + rest.rows && out.ring == rest.ring
      && out.dt == rest.dt && out.s == rest.s && out.pos == rest.pos && out.attempts == m.tick + rest.attempts
      && out.starved == rest.starved
  {
  }

  /** `out` is where the loop ends when, from the point where it stands at
      `rest`, it has already recorded `taken`. */
  predicate Continues(out: Outcome, taken: seq<seq<int>>, rest: Outcome) {
    out.rows == taken + rest.rows && out.ring == rest.ring && out.dt == rest.dt
    && out.s == rest.s && out.pos == rest.pos && out.starved == rest.starved
  }

  /** Before anything is recorded, an outcome continues into itself. */
  lemma ContinuesStart(out: Outcome)
    ensures Continues(out, [], out)
  {
    assert [] + out.rows == out.rows;
  }

  lemma ContinuesTrans(out: Outcome, taken: seq<seq<int>>, mid: Outcome, more: seq<seq<int>>, rest: Outcome)
    requires Continues(out, taken, mid) && Continues(mid, more, rest)
    ensures Continues(out, taken + more, rest)
    ensures forall j :: 0 <= j < |more| ==> out.rows[|taken| + j] == more[j]
  {
    assert taken + (more + rest.rows) == (taken + more) + rest.rows;
    forall j | 0 <= j < |more|
      ensures out.rows[|taken| + j] == more[j]
    {
      assert out.rows[|taken| + j] == (more + rest.rows)[j];
    }
  }

  /** One pass of the loop in the form the imperative loop takes it: from
      `ring`, `dt`, `s` at draw `pos`, the shot due (if any) is recorded as
      `shot`, the counters become `dt1`, `s1`, and the step leaves `ring'`,
      `dt'`, `pos'`. The outcome from before the pass continues with `shot`
      into the outcome from after it. */
  lemma RunPass(c: Config, ring: seq<int>, dt: nat, s: nat, draws: seq<real>, pos: nat,
                shot: seq<seq<int>>, dt1: nat, s1: nat, ring': seq<int>, dt': nat, pos': nat)
    requires ValidConfig(c) && |ring| == c.n && dt <= c.dtShot && s < c.shots
    requires Draws(draws) && pos <= |draws| && !Starved(c, ring, draws, pos)
    requires shot == (if dt == c.dtShot then [ring] else []) && dt1 == (if dt == c.dtShot then 0 else dt)
    requires s1 == (if dt == c.dtShot then s + 1 else s)
    requires var m := Advance(c, ring, draws, pos); ring' == m.ring && dt' == dt1 + m.tick && pos' == m.pos
    ensures |ring'| == c.n && dt' <= c.dtShot && s1 <= c.shots && pos' <= |draws|
    ensures Continues(Run(c, ring, dt, s, draws, pos), shot, Run(c, ring', dt', s1, draws, pos'))
  {
    RunStep(c, ring, dt, s, draws, pos);
  }

  /** The last pass when the draws run out: the shot due (if any) is still
      taken, and the loop stops there, starved, even when that shot was the
      last one. */
  lemma RunLastPass(c: Config, ring: seq<int>, dt: nat, s: nat, draws: seq<real>, pos: nat,
                    shot: seq<seq<int>>, dt1: nat, s1: nat)
    requires ValidConfig(c) && |ring| == c.n && dt <= c.dtShot && s < c.shots
    requires Draws(draws) && pos <= |draws| && Starved(c, ring, draws, pos)
    requires shot == (if dt == c.dtShot then [ring] else []) && dt1 == (if dt == c.dtShot then 0 else dt)
    requires s1 == (if dt == c.dtShot then s + 1 else s)
    ensures dt1 <= c.dtShot && s1 <= c.shots
    ensures Continues(Run(c, ring, dt, s, draws, pos), shot, Outcome([], ring, dt1, s1, pos, 0, true))
  {
  }

  /** Rows that are whole rings of states. */
  predicate RowsOf(rows: seq<seq<int>>, n: nat) {
    forall j :: 0 <= j < |rows| ==> |rows[j]| == n && States(rows[j])
  }

  lemma RowsOfConcat(xs: seq<seq<int>>, ys: seq<seq<int>>, n: nat)
    requires RowsOf(xs, n) && RowsOf(ys, n)
    ensures RowsOf(xs + ys, n)
  {
    forall j | 0 <= j < |xs + ys| ensures |(xs + ys)[j]| == n && States((xs + ys)[j]) {
      if j >= |xs| {
        assert (xs + ys)[j] == ys[j - |xs|];
      }
    }
  }

  /** The counters stay in range (0 <= dt <= DT_SHOT, s <= SHOTS), one row
      is recorded per shot, and a ring of states stays one. */
  lemma {:induction false} RunCounters(c: Config, ring: seq<int>, dt: nat, s: nat, draws: seq<real>, pos: nat)
    requires ValidConfig(c) && |ring| == c.n && dt <= c.dtShot && s <= c.shots
    requires Draws(draws) && pos <= |draws|
    ensures var out := Run(c, ring, dt, s, draws, pos);
      |out.ring| == c.n && out.dt <= c.dtShot && s <= out.s <= c.shots && |out.rows| == out.s - s
      && (!out.starved ==> out.s == c.shots)
      && (States(ring) ==> States(out.ring))
    decreases |draws| - pos
  {
    if s < c.shots && !Starved(c, ring, draws, pos) {
      var m := Advance(c, ring, draws, pos);
      var shoot := dt == c.dtShot;
      RunCounters(c, m.ring, (if shoot then 0 else dt) + m.tick, if shoot then s + 1 else s, draws, m.pos);
      RunStep(c, ring, dt, s, draws, pos);
    }
  }

  /** Every recorded row is a whole ring of states. */
  lemma {:induction false} RunRows(c: Config, ring: seq<int>, dt: nat, s: nat, draws: seq<real>, pos: nat)
    requires ValidConfig(c) && |ring| == c.n && dt <= c.dtShot && s <= c.shots && States(ring)
    requires Draws(draws) && pos <= |draws|
    ensures RowsOf(Run(c, ring, dt, s, draws, pos).rows, c.n)
    decreases |draws| - pos
  {
    if s < c.shots && !Starved(c, ring, draws, pos) {
      var m := Advance(c, ring, draws, pos);
      var shoot := dt == c.dtShot;
      var dt', s' := (if shoot then 0 else dt) + m.tick, if shoot then s + 1 else s;
      RunRows(c, m.ring, dt', s', draws, m.pos);
      RowsOfConcat(if shoot then [ring] else [], Run(c, m.ring, dt', s', draws, m.pos).rows, c.n);
      RunStep(c, ring, dt, s, draws, pos);
    }
  }

  /** Shot 0 of a replica: when `dt` starts at DT_SHOT the first row is the
      ring as it was before any step. */
  lemma FirstRowIsStart(c: Config, ring: seq<int>, s: nat, draws: seq<real>, pos: nat)
    requires ValidConfig(c) && |ring| == c.n && s < c.shots
    requires Draws(draws) && pos <= |draws|
    ensures var out := Run(c, ring, c.dtShot, s, draws, pos);
      |out.rows| > 0 && out.rows[0] == ring
  {
  }

  /** Elapsed time in steps that counted, since both counters were 0: each
      completed shot stands for DT_SHOT of them. */
  function Clock(c: Config, s: nat, dt: nat): nat {
    s * c.dtShot + dt
  }

  /** Taking a shot moves DT_SHOT units from `dt` into `s` and keeps the clock. */
  lemma ShotKeepsClock(c: Config, s: nat)
    ensures Clock(c, s + 1, 0) == Clock(c, s, c.dtShot)
  {
  }

  /** Time is counted exactly: the clock read from the counters advances by
      the number of steps whose left site was not a hole. */
  lemma {:induction false} RunClock(c: Config, ring: seq<int>, dt: nat, s: nat, draws: seq<real>, pos: nat)
    requires ValidConfig(c) && |ring| == c.n && dt <= c.dtShot && s <= c.shots
    requires Draws(draws) && pos <= |draws|
    ensures var out := Run(c, ring, dt, s, draws, pos);
      Clock(c, out.s, out.dt) == Clock(c, s, dt) + out.attempts
    decreases |draws| - pos
  {
    ShotKeepsClock(c, s);
    if s < c.shots && !Starved(c, ring, draws, pos) {
      var m := Advance(c, ring, draws, pos);
      var shoot := dt == c.dtShot;
      RunClock(c, m.ring, (if shoot then 0 else dt) + m.tick, if shoot then s + 1 else s, draws, m.pos);
      RunStep(c, ring, dt, s, draws, pos);
    }
  }

  /** The loop ends only in two ways: after the step that follows shot
      SHOTS, or starved, at a point where the draws cannot feed the next
      step. With an endless stream it would go on until the first. */
  lemma {:induction false} RunEndsStarved(c: Config, ring: seq<int>, dt: nat, s: nat, draws: seq<real>, pos: nat)
    requires ValidConfig(c) && |ring| == c.n && dt <= c.dtShot && s <= c.shots
    requires Draws(draws) && pos <= |draws|
    ensures var out := Run(c, ring, dt, s, draws, pos);
      |out.ring| == c.n
      && (out.starved ==> Starved(c, out.ring, draws, out.pos))
      && (!out.starved ==> out.s == c.shots)
    decreases |draws| - pos
  {
    RunCounters(c, ring, dt, s, draws, pos);
    if s < c.shots && !Starved(c, ring, draws, pos) {
      var m := Advance(c, ring, draws, pos);
      var shoot := dt == c.dtShot;
      RunEndsStarved(c, m.ring, (if shoot then 0 else dt) + m.tick, if shoot then s + 1 else s, draws, m.pos);
      RunStep(c, ring, dt, s, draws, pos);
    }
  }

  /** A ring of holes only never advances the clock: no step counts and no
      shot falls due, so the loop consumes the whole stream without
      recording anything. */
  lemma {:induction false} HoleRingStalls(c: Config, ring: seq<int>, dt: nat, s: nat, draws: seq<real>, pos: nat)
    requires ValidConfig(c) && |ring| == c.n && dt < c.dtShot && s <= c.shots
    requires Draws(draws) && pos <= |draws|
    requires forall i :: 0 <= i < |ring| ==> ring[i] == -1
    ensures var out := Run(c, ring, dt, s, draws, pos);
      out.rows == [] && out.ring == ring && out.dt == dt && out.s == s && out.attempts == 0
      && (s < c.shots ==> out.pos == |draws|)
    decreases |draws| - pos
  {
    if s < c.shots && !Starved(c, ring, draws, pos) {
      var m := Advance(c, ring, draws, pos);
      HoleStepIsIdle(ring, SiteIndex(draws[pos], c.n), 0.0, c.probs);
      HoleRingStalls(c, m.ring, dt + m.tick, s, draws, m.pos);
      RunStep(c, ring, dt, s, draws, pos);
    }
  }

  /** On a ring of at least two sites every recorded shot, and the final
      ring, have the total of the starting ring. */
  lemma {:induction false} RunConservesSum(c: Config, ring: seq<int>, dt: nat, s: nat, draws: seq<real>, pos: nat)
    requires ValidConfig(c) && c.n >= 2 && |ring| == c.n && dt <= c.dtShot && s <= c.shots
    requires Draws(draws) && pos <= |draws|
    ensures var out := Run(c, ring, dt, s, draws, pos);
      Sum(out.ring) == Sum(ring) && forall j :: 0 <= j < |out.rows| ==> Sum(out.rows[j]) == Sum(ring)
    decreases |draws| - pos
  {
    if s < c.shots && !Starved(c, ring, draws, pos) {
      var m := Advance(c, ring, draws, pos);
      var shoot := dt == c.dtShot;
      var dt', s' := (if shoot then 0 else dt) + m.tick, if shoot then s + 1 else s;
      AdvanceFacts(c, ring, draws, pos);
      RunConservesSum(c, m.ring, dt', s', draws, m.pos);
      RowsConserveSum(if shoot then [ring] else [], Run(c, m.ring, dt', s', draws, m.pos).rows, Sum(ring));
      RunStep(c, ring, dt, s, draws, pos);
    }
  }

  /** Rows of a given total, concatenated, still all have that total. */
  lemma RowsConserveSum(xs: seq<seq<int>>, ys: seq<seq<int>>, total: int)
    requires forall j :: 0 <= j < |xs| ==> Sum(xs[j]) == total
    requires forall j :: 0 <= j < |ys| ==> Sum(ys[j]) == total
    ensures forall j :: 0 <= j < |xs + ys| ==> Sum((xs + ys)[j]) == total
  {
    forall j | 0 <= j < |xs + ys| ensures Sum((xs + ys)[j]) == total {
      if j >= |xs| {
        assert (xs + ys)[j] == ys[j - |xs|];
      }
    }
  }

  /** What the whole run records: per replica the rows of its shots and
      the draw its initial fill started at, how many replicas completed all
      SHOTS shots, and the next unread draw. */
  datatype Record = Record(replicas: seq<seq<seq<int>>>, starts: seq<nat>, completed: nat, pos: nat)

  /** Rows of one replica: at most SHOTS of them, each a ring of states. */
  predicate Recorded(c: Config, rows: seq<seq<int>>) {
    |rows| <= c.shots && RowsOf(rows, c.n)
  }

  /** One replica whose initial fill reads the N draws from `pos`: shot 0
      is due at once (dt starts at DT_SHOT), and its steps read the draws
      after the fill. */
  function Replica(c: Config, left: Thresholds, right: Thresholds, draws: seq<real>, pos: nat): (out: Outcome)
    requires ValidConfig(c) && Draws(draws) && pos + c.n <= |draws|
    ensures pos + c.n <= out.pos <= |draws|
  {
    Run(c, FillRing(draws[pos..pos + c.n], left, right), c.dtShot, 0, draws, pos + c.n)
  }

  /** A replica is the run from its filled ring. */
  lemma ReplicaIsRun(c: Config, left: Thresholds, right: Thresholds, draws: seq<real>, pos: nat)
    requires ValidConfig(c) && Draws(draws) && pos + c.n <= |draws|
    ensures Replica(c, left, right, draws, pos) == Run(c, FillRing(draws[pos..pos + c.n], left, right), c.dtShot, 0, draws, pos + c.n)
  {
  }

  /** Replica `rows`, whose fill read the N draws from `start`, begins
      with the ring that fill produced. */
  predicate StartsAt(c: Config, left: Thresholds, right: Thresholds, draws: seq<real>, rows: seq<seq<int>>, start: nat) {
    start + c.n <= |draws| && |rows| > 0 && rows[0] == FillRing(draws[start..start + c.n], left, right)
  }

  /** What one replica records: one row per shot, at most SHOTS of them,
      each a ring of states, and row 0 is the ring of its initial fill. A
      replica that was not starved took all SHOTS shots. */
  lemma ReplicaFacts(c: Config, left: Thresholds, right: Thresholds, draws: seq<real>, pos: nat)
    requires ValidConfig(c) && Draws(draws) && pos + c.n <= |draws|
    ensures var out := Replica(c, left, right, draws, pos);
      out.s <= c.shots && |out.rows| == out.s && Recorded(c, out.rows)
      && (!out.starved ==> out.s == c.shots)
      && (c.shots > 0 ==> StartsAt(c, left, right, draws, out.rows, pos))
  {
    var ring := FillRing(draws[pos..pos + c.n], left, right);
    RunCounters(c, ring, c.dtShot, 0, draws, pos + c.n);
    RunRows(c, ring, c.dtShot, 0, draws, pos + c.n);
    if c.shots > 0 {
      FirstRowIsStart(c, ring, 0, draws, pos + c.n);
    }
  }

  /** The replica loop: up to `remaining` more replicas from draw `pos`.
      Each replica fills the ring from the next N draws, then runs its shot
      loop; a replica starved of draws ends the run, even when it was only
      the step after its last shot that could not be fed. */
  function Replicas(c: Config, left: Thresholds, right: Thresholds, draws: seq<real>, pos: nat, remaining: nat): (out: Record)
    requires ValidConfig(c) && Draws(draws) && pos <= |draws|
    ensures pos <= out.pos <= |draws|
    decreases remaining
  {
    if remaining == 0 || |draws| - pos < c.n then Record([], [], 0, pos)
    else
      var run := Replica(c, left, right, draws, pos);
      if run.starved then Record([run.rows], [pos], 0, run.pos)
      else
        var rest := Replicas(c, left, right, draws, run.pos, remaining - 1);
        Record([run.rows] + rest.replicas, [pos] + rest.starts, rest.completed + 1, rest.pos)
  }

  /** One pass of the replica loop: the replica it runs, then, when that
      replica completed, the rest of the loop. */
  lemma ReplicasStep(c: Config, left: Thresholds, right: Thresholds, draws: seq<real>, pos: nat, remaining: nat)
    requires ValidConfig(c) && Draws(draws) && pos <= |draws|
    requires remaining > 0 && |draws| - pos >= c.n
    ensures var run := Replica(c, left, right, draws, pos);
      var out := Replicas(c, left, right, draws, pos, remaining);
      (run.starved ==> out == Record([run.rows], [pos], 0, run.pos))
      && (!run.starved ==>
            var rest := Replicas(c, left, right, draws, run.pos, remaining - 1);
            out == Record([run.rows] + rest.replicas, [pos] + rest.starts, rest.completed + 1, rest.pos))
  {
  }

  /** `total` is where the replica loop ends when, from the point where it
      stands at `rest`, it has already recorded `history` and completed `k`
      replicas. */
  predicate Follows(total: Record, history: seq<seq<seq<int>>>, k: nat, rest: Record) {
    total.replicas == history + rest.replicas && total.completed == k + rest.completed
  }

  /** One pass of the replica loop seen from the replica it runs: a
      completed replica moves from the rest of the loop into the history,
      and one cut short is the last the loop records. */
  lemma FollowsPass(c: Config, left: Thresholds, right: Thresholds, draws: seq<real>, pos: nat, remaining: nat,
                    total: Record, history: seq<seq<seq<int>>>, k: nat)
    requires ValidConfig(c) && Draws(draws) && pos + c.n <= |draws| && remaining > 0
    requires Follows(total, history, k, Replicas(c, left, right, draws, pos, remaining))
    ensures var run := Replica(c, left, right, draws, pos);
      (!run.starved ==>
            Follows(total, history + [run.rows], k + 1, Replicas(c, left, right, draws, run.pos, remaining - 1)))
      && (run.starved ==> total.replicas == history + [run.rows] && total.completed == k)
  {
    var run := Replica(c, left, right, draws, pos);
    ReplicaFacts(c, left, right, draws, pos);
    ReplicasStep(c, left, right, draws, pos, remaining);
    if !run.starved {
      var more := Replicas(c, left, right, draws, run.pos, remaining - 1);
      assert history + ([run.rows] + more.replicas) == (history + [run.rows]) + more.replicas;
    }
  }

  /** The replica loop ends without a pass once no replica is left or the
      draws cannot fill another ring. */
  lemma FollowsEnd(c: Config, left: Thresholds, right: Thresholds, draws: seq<real>, pos: nat, remaining: nat,
                   total: Record, history: seq<seq<seq<int>>>, k: nat)
    requires ValidConfig(c) && Draws(draws) && pos <= |draws|
    requires remaining == 0 || |draws| - pos < c.n
    requires Follows(total, history, k, Replicas(c, left, right, draws, pos, remaining))
    ensures total.replicas == history && total.completed == k
  {
    assert history + [] == history;
  }

  /** A regression example of the finite stream, which the program's endless
      generator never reaches. The step after a replica's last shot reads
      draws too: on a ring of one neutral site that step needs a site draw and an acceptance draw, and
      with only the site draw left the replica is starved, does not count as
      completed, and no further fill reads that draw. */
  lemma StarvedAfterLastShot(p: Probabilities)
    ensures var t := Thresholds(0.0, 1.0);
      Replicas(Config(1, 1, 1, p), t, t, [0.9, 0.5], 0, 2) == Record([[[0]]], [0], 0, 1)
  {
    var c, t, draws := Config(1, 1, 1, p), Thresholds(0.0, 1.0), [0.9, 0.5];
    assert draws[0..1] == [0.9];
    assert FillRing(draws[0..1], t, t) == [0];
    assert SiteIndex(0.5, 1) == 0;
    assert Starved(c, [0], draws, 1);
  }

  /** The counts of a record of up to `remaining` replicas read from draw
      `pos` of `len` draws: at most `remaining` replicas, all completed but
      at most one cut short, and each replica's fill starts at or after `pos`
      with its N draws available. */
  predicate Counted(out: Record, pos: nat, remaining: nat, n: nat, len: nat) {
    out.completed <= |out.replicas| <= remaining
    && (|out.replicas| == out.completed || |out.replicas| == out.completed + 1)
    && |out.starts| == |out.replicas|
    && (forall j :: 0 <= j < |out.starts| ==> pos <= out.starts[j] && out.starts[j] + n <= len)
  }

  lemma CountedCons(rows: seq<seq<int>>, pos: nat, pos': nat, rest: Record, remaining: nat, n: nat, len: nat)
    requires remaining > 0 && pos <= pos' && pos + n <= len
    requires Counted(rest, pos', remaining - 1, n, len)
    ensures Counted(Record([rows] + rest.replicas, [pos] + rest.starts, rest.completed + 1, rest.pos), pos, remaining, n, len)
  {
    var starts := [pos] + rest.starts;
    forall j | 0 <= j < |starts| ensures pos <= starts[j] && starts[j] + n <= len {
      if j > 0 {
        assert starts[j] == rest.starts[j - 1];
      }
    }
  }

  /** The replica loop runs at most `remaining` replicas, each to
      completion except possibly the last, which the end of the draws cut
      short. */
  lemma {:induction false} ReplicasCounts(c: Config, left: Thresholds, right: Thresholds, draws: seq<real>, pos: nat, remaining: nat)
    requires ValidConfig(c) && Draws(draws) && pos <= |draws|
    ensures Counted(Replicas(c, left, right, draws, pos, remaining), pos, remaining, c.n, |draws|)
    decreases remaining
  {
    if remaining > 0 && |draws| - pos >= c.n {
      var run := Replica(c, left, right, draws, pos);
      if !run.starved {
        ReplicasCounts(c, left, right, draws, run.pos, remaining - 1);
        CountedCons(run.rows, pos, run.pos, Replicas(c, left, right, draws, run.pos, remaining - 1), remaining, c.n, |draws|);
      }
      ReplicasStep(c, left, right, draws, pos, remaining);
    }
  }

  /** The replica loop stops early only when the draws run out: either all
      `remaining` replicas complete, or fewer than N draws are left for the
      next fill, or the last replica was starved with at most one draw left. */
  lemma {:induction false} ReplicasRunAll(c: Config, left: Thresholds, right: Thresholds, draws: seq<real>, pos: nat, remaining: nat)
    requires ValidConfig(c) && Draws(draws) && pos <= |draws|
    ensures var rec := Replicas(c, left, right, draws, pos, remaining);
      rec.completed == remaining || |draws| - rec.pos < c.n || |draws| - rec.pos <= 1
    decreases remaining
  {
    if remaining > 0 && |draws| - pos >= c.n {
      var ring := FillRing(draws[pos..pos + c.n], left, right);
      RunEndsStarved(c, ring, c.dtShot, 0, draws, pos + c.n);
      var run := Replica(c, left, right, draws, pos);
      if !run.starved {
        ReplicasRunAll(c, left, right, draws, run.pos, remaining - 1);
      }
      ReplicasStep(c, left, right, draws, pos, remaining);
    }
  }

  /** Every replica of the record holds rows of states, and each completed
      one holds exactly SHOTS of them. */
  predicate RowsRecorded(c: Config, out: Record) {
    (forall j :: 0 <= j < |out.replicas| ==> Recorded(c, out.replicas[j]))
    && (forall j :: 0 <= j < out.completed && j < |out.replicas| ==> |out.replicas[j]| == c.shots)
  }

  lemma RowsRecordedCons(c: Config, rows: seq<seq<int>>, start: nat, rest: Record)
    requires Recorded(c, rows) && |rows| == c.shots && RowsRecorded(c, rest)
    ensures RowsRecorded(c, Record([rows] + rest.replicas, [start] + rest.starts, rest.completed + 1, rest.pos))
  {
    var ys := [rows] + rest.replicas;
    forall j | 0 <= j < |ys|
      ensures Recorded(c, ys[j])
      ensures j < rest.completed + 1 ==> |ys[j]| == c.shots
    {
      if j > 0 {
        assert ys[j] == rest.replicas[j - 1];
      }
    }
  }

  /** Every replica records rows of states, and a completed one records
      exactly SHOTS rows. */
  lemma {:induction false} ReplicasRows(c: Config, left: Thresholds, right: Thresholds, draws: seq<real>, pos: nat, remaining: nat)
    requires ValidConfig(c) && Draws(draws) && pos <= |draws|
    ensures RowsRecorded(c, Replicas(c, left, right, draws, pos, remaining))
    decreases remaining
  {
    if remaining > 0 && |draws| - pos >= c.n {
      var run := Replica(c, left, right, draws, pos);
      ReplicaFacts(c, left, right, draws, pos);
      if !run.starved {
        ReplicasRows(c, left, right, draws, run.pos, remaining - 1);
        RowsRecordedCons(c, run.rows, pos, Replicas(c, left, right, draws, run.pos, remaining - 1));
      }
      ReplicasStep(c, left, right, draws, pos, remaining);
    }
  }

  /** Every replica of the record begins with the ring its fill produced. */
  predicate StartsWithFill(c: Config, left: Thresholds, right: Thresholds, draws: seq<real>, out: Record) {
    |out.starts| == |out.replicas|
    && forall j :: 0 <= j < |out.replicas| ==> StartsAt(c, left, right, draws, out.replicas[j], out.starts[j])
  }

  lemma StartsWithFillCons(c: Config, left: Thresholds, right: Thresholds, draws: seq<real>,
                           rows: seq<seq<int>>, start: nat, rest: Record)
    requires StartsAt(c, left, right, draws, rows, start) && StartsWithFill(c, left, right, draws, rest)
    ensures StartsWithFill(c, left, right, draws, Record([rows] + rest.replicas, [start] + rest.starts, rest.completed + 1, rest.pos))
  {
    var ys, starts := [rows] + rest.replicas, [start] + rest.starts;
    forall j | 0 <= j < |ys| ensures StartsAt(c, left, right, draws, ys[j], starts[j]) {
      if j > 0 {
        assert ys[j] == rest.replicas[j - 1] && starts[j] == rest.starts[j - 1];
      }
    }
  }

  /** Row 0 of every replica is the ring its initial fill produced, recorded
      before any transition. */
  lemma {:induction false} FirstShotIsInitialRing(c: Config, left: Thresholds, right: Thresholds, draws: seq<real>, pos: nat, remaining: nat)
    requires ValidConfig(c) && Draws(draws) && pos <= |draws| && c.shots > 0
    ensures StartsWithFill(c, left, right, draws, Replicas(c, left, right, draws, pos, remaining))
    decreases remaining
  {
    if remaining > 0 && |draws| - pos >= c.n {
      var run := Replica(c, left, right, draws, pos);
      ReplicaFacts(c, left, right, draws, pos);
      if !run.starved {
        FirstShotIsInitialRing(c, left, right, draws, run.pos, remaining - 1);
        StartsWithFillCons(c, left, right, draws, run.rows, pos, Replicas(c, left, right, draws, run.pos, remaining - 1));
      }
      ReplicasStep(c, left, right, draws, pos, remaining);
    }
  }

  /** The accumulator cell (r, i) the run produces from a zero table: the sum
      over replicas of their value at site i in shot r. */
  function CellSum(replicas: seq<seq<seq<int>>>, r: nat, i: nat): int {
    if replicas == [] then 0
    else
      var last := replicas[|replicas| - 1];
      CellSum(replicas[..|replicas| - 1], r, i) + if r < |last| && i < |last[r]| then last[r][i] else 0
  }

  /** Every cell is bounded by the number of replicas that contributed. */
  lemma {:induction false} CellSumBounded(replicas: seq<seq<seq<int>>>, r: nat, i: nat)
    requires forall j :: 0 <= j < |replicas| ==> forall q :: 0 <= q < |replicas[j]| ==> States(replicas[j][q])
    ensures -|replicas| <= CellSum(replicas, r, i) <= |replicas|
  {
    if replicas != [] {
      CellSumBounded(replicas[..|replicas| - 1], r, i);
    }
  }
}
